=== FILE: README.md ===
# MD1D single-particle simulator, modelled in Dafny

MD1D advances one point particle along a line through a confining force
field with velocity-Verlet time stepping. It records the time, position,
velocity and kinetic, potential and total energy before the first step and
after every step. This project models that core in Dafny. Floating-point
numbers become `real`, and it proves what the integrator guarantees in exact
arithmetic.

The project has five modules, following the program's three files:

- `Potentials` (`potentials.dfy`) models `MD1D/potentials.py`. The four fields are one
  datatype: `NoPotential`, `Harmonic`, `Quartic` and `Box`. Each has `Energy(x)` and
  `Force(x)`, with the constructor defaults of the program. The lemmas say:
  - with non-negative parameters the energy is non-negative;
  - with non-negative parameters the force never points away from the center;
  - every field is mirror symmetric;
  - for `width >= 0` the box is flat inside its walls, walls included, and a spring on the overshoot outside;
  - the force is minus the slope of the energy. The slope remainder
    `U(x+h) - U(x) + F(x) h` is exactly `k h^2 / 2` for the harmonic well,
    `a h^2 (6 d^2 + 4 d h + h^2)` for the quartic well, and lies in
    `[0, s h^2 / 2]` for a box with `width >= 0` and `s >= 0`.
- `Particles` (`particle.dfy`) models `MD1D/particle.py`. The mutable
  `Particle1D` becomes an immutable record, and each mutator returns the
  updated record.
- `Verlet` (`verlet.dfy`) models the loop body of `simulate_particle` (`MD1D/particle_sim.py`):
  - `Step` is one kick-drift-kick step, built from the particle's own
    mutators in the program's order;
  - `Iterate` is n steps;
  - `StepCount` is the number of loop iterations: `ceil(duration / dt)` for
    `duration > 0`, and 0 otherwise.

  The lemmas prove three things:
  - exact time reversibility of a step and of a whole run;
  - a step never reads the incoming acceleration;
  - with no force a run is uniform linear motion.
- `HarmonicVerlet` (`harmonic_verlet.dfy`) covers the energy behaviour in the
  harmonic well. Velocity Verlet conserves a "shadow" energy exactly: the
  kinetic energy plus `(1 - q)` times the spring energy, with
  `q = k dt^2 / (4 m)`. For `k >= 0`, `m > 0` and `q < 1`, that is
  `dt < 2 sqrt(m / k)`, it follows that the total energy does not drift. At
  every step count its distance from the initial value is at most
  `q / (1 - q)` times the initial value. Above that stability limit the
  method is unstable, and no such bound holds.
- `Simulation` (`simulation.dfy`) is `simulate_particle` itself. `Simulate`
  runs the loop with the program's statements and sample appends, and
  returns the five aligned series. The lemmas state what every sampled run
  satisfies:
  - sample 0 is the initial state;
  - sample `i` is taken at time `i * dt` and records the state after `i` steps;
  - each total sample is the sum of the kinetic and potential samples;
  - kinetic samples are non-negative when the mass is non-negative, and
    potential samples when the field's parameters are non-negative;
  - a free particle's samples lie on a straight line;
  - harmonic runs obey the drift bound.

## Model

| member | source | states |
|---|---|---|
| Potentials.Abs | MD1D/potentials.py:101 | `abs` is non-negative and equals `y` or `-y` |
| Potentials.Sign | MD1D/potentials.py:116 | numpy's `sign` is 1 for positive, -1 for negative and 0 for zero arguments |
| Potentials.EnergyIsNonNegative | MD1D/potentials.py:21-107 | with non-negative parameters (`k`, `a`, `width`, `wall_stiffness`) every field's energy is `>= 0` everywhere and `0` at its center |
| Potentials.ForceRestores | MD1D/potentials.py:24-118 | with non-negative parameters the force never points away from the center (`F(x) * (x - center) <= 0`) and vanishes at the center |
| Potentials.FreeFieldIsZero | MD1D/potentials.py:21-25 | the free field has zero energy and zero force at every position |
| Potentials.HarmonicRestores | MD1D/potentials.py:43-51 | for `k > 0` the spring force is negative right of the center and positive left of it, and the energy is zero exactly at the center |
| Potentials.QuarticRestores | MD1D/potentials.py:70-78 | for `a > 0` the quartic force is negative right of the center and positive left of it, and the energy is zero exactly at the center |
| Potentials.MirrorSymmetry | MD1D/potentials.py:43-118 | for every field the energy at `center + d` equals that at `center - d`, and the forces are opposite |
| Potentials.BoxIsFlatInside | MD1D/potentials.py:99-113 | within `half_width` of the center, boundary included, the box has zero energy and zero force |
| Potentials.BoxWallsAreInside | MD1D/potentials.py:97-113 | for `width >= 0`, at both walls `center +- width / 2` energy and force are exactly zero |
| Potentials.BoxWallOutside | MD1D/potentials.py:104-118 | for `width >= 0`, past a wall the overshoot is positive, the energy is `s overshoot^2 / 2`, the force's magnitude is `abs(s) overshoot`, and for `s > 0` the energy is positive and the force points back inside |
| Potentials.HarmonicForceIsSlope | MD1D/potentials.py:43-51 | the harmonic force is minus the derivative of the harmonic energy: `U(x+h) - U(x) + F(x) h` is exactly `k h^2 / 2`, with no first-order term |
| Potentials.QuarticForceIsSlope | MD1D/potentials.py:70-78 | the quartic force is minus the derivative of the quartic energy: the remainder is `a h^2 (6 d^2 + 4 d h + h^2)` with `d = x - c`; the factor is non-negative, and for `abs(h) <= 1` it is at most `6 d^2 + 4 abs(d) + 1` |
| Potentials.BoxForceIsSlope | MD1D/potentials.py:99-118 | the box force is minus the slope of the box energy: for `width >= 0`, `s >= 0` and any step `h` the remainder lies in `[0, s h^2 / 2]` |
| Particles.NewParticle | MD1D/particle.py:10-26 | a particle built from explicit position, velocity and mass (default 1) holds them, with zero acceleration |
| Particles.ApplyForce | MD1D/particle.py:28-37 | after applying `force`, `mass * acceleration == force`; position, velocity and mass are unchanged |
| Particles.UpdatePosition | MD1D/particle.py:39-41 | the position advances by `velocity * dt`; nothing else changes |
| Particles.UpdateVelocity | MD1D/particle.py:43-45 | the velocity advances by `acceleration * dt`; nothing else changes |
| Particles.KineticEnergy | MD1D/particle_sim.py:44 | `0.5 m v^2` is non-negative for a non-negative mass and zero at rest |
| Particles.ApplyForceOverwrites | MD1D/particle.py:37 | only the last applied force matters |
| Particles.DriftsCompose | MD1D/particle.py:41 | drifts compose additively, and a drift of `-dt` undoes a drift of `dt` |
| Particles.KicksCompose | MD1D/particle.py:45 | kicks compose additively, so two half kicks make one full kick, and a kick of `-dt` undoes a kick of `dt` |
| Particles.KickWithoutAcceleration | MD1D/particle.py:43-45 | with zero acceleration a kick of any step leaves the particle unchanged |
| Verlet.Step | MD1D/particle_sim.py:50-60 | the closed form of one loop body: half-step velocity `v + F(x) / m * dt / 2`, new position `x + vHalf dt`, new velocity `vHalf + F(x') / m * dt / 2`, acceleration `F(x') / m`, mass unchanged |
| Verlet.Iterate | MD1D/particle_sim.py:48-60 | `n` loop bodies keep the mass, and zero bodies leave the particle unchanged |
| Verlet.StepCount | MD1D/particle_sim.py:48-63 | the loop runs the least `n` with `n dt >= duration`: `(n - 1) dt < duration <= n dt`, and `n == 0` when `duration <= 0` |
| Verlet.StepReadsOnlyPhase | MD1D/particle_sim.py:50-60 | a step's result does not depend on the incoming acceleration, because `apply_force` overwrites it before it is read |
| Verlet.StepIsReversible | MD1D/particle_sim.py:50-60 | a step of `-dt` after a step of `dt` returns exactly to the starting position and velocity, in every force field |
| Verlet.RunIsReversible | MD1D/particle_sim.py:48-60 | `n` steps of `-dt` after `n` steps of `dt` return exactly to the starting position and velocity |
| Verlet.FreeMotionIsLinear | MD1D/particle_sim.py:48-60 | in a field without force, after `n` steps the velocity is unchanged and the position is `x0 + v0 n dt` |
| HarmonicVerlet.StepConservesShadowEnergy | MD1D/particle_sim.py:50-60 | in `Harmonic(k, c)` one step keeps `m v^2 / 2 + (1 - k dt^2 / (4m)) k d^2 / 2` exactly |
| HarmonicVerlet.RunConservesShadowEnergy | MD1D/particle_sim.py:48-60 | the shadow energy after any number of harmonic steps equals the initial one |
| HarmonicVerlet.RunEnergyError | MD1D/particle_sim.py:48-71 | after `n` harmonic steps the total energy differs from the initial total by `q` times the change in spring energy, `q = k dt^2 / (4m)` |
| HarmonicVerlet.RunEnergyDriftIsBounded | MD1D/particle_sim.py:48-71 | for `k >= 0`, `m > 0` and `q < 1`, after any number of steps `(1 - q) abs(E_n - E_0) <= q E_0`: the error oscillates with a bound independent of the duration |
| Simulation.Simulate | MD1D/particle_sim.py:11-79 | the five series are aligned, sample `i` is at time `i dt` and records the state after `i` steps, there are `StepCount + 1` samples (one when `duration <= 0`), the last time lies in `[duration, duration + dt)`, and the final particle is the last recorded state with its mass unchanged |
| Simulation.FirstSampleIsInitialState | MD1D/particle_sim.py:38-46 | sample 0 is the initial state at time 0, with its kinetic and potential energy |
| Simulation.KineticSamplesAreNonNegative | MD1D/particle_sim.py:44-69 | with a non-negative mass every kinetic-energy sample is non-negative |
| Simulation.PotentialSamplesAreNonNegative | MD1D/particle_sim.py:45-70 | with non-negative field parameters every potential-energy sample is non-negative |
| Simulation.TotalSamplesAreSums | MD1D/particle_sim.py:64-71 | in every field each total sample is the kinetic plus the potential sample, and equals the total energy of the state after that many steps |
| Simulation.FreeRunIsLinear | MD1D/particle_sim.py:48-71 | with `NoPotential`, every velocity sample equals the initial velocity and every position sample is `x0 + v0 * times[i]` |
| Simulation.HarmonicRunDriftIsBounded | MD1D/particle_sim.py:48-71 | in a harmonic well with `k >= 0`, mass `m > 0` and `q < 1` every total-energy sample is within `q / (1 - q)` of the first, relative to the first |
| Simulation.SampleAt | MD1D/particle_sim.py:64-71 | sample `i` holds the position, velocity, kinetic, potential and total energy of the state after `i` steps |
| Simulation.RunEndsAtDuration | MD1D/particle_sim.py:48-63 | once the accumulated time reaches `duration`, exactly `StepCount` steps were taken and the last time lies in `[duration, duration + dt)` |

## Left out

- Plotting, animation (`MD1D/visualization.py`) and the interactive `main` are presentation only. They are not part of this model.
- The random initial position and velocity of `Particle1D` depend on a random generator. `NewParticle` takes explicit values.
- IEEE-754 rounding is not modelled, because all arithmetic is exact over the reals:
  - `time += dt` accumulates rounding error in the program, and that can add or drop one loop iteration near `duration`. The model's time after `i` steps is exactly `i dt`.
  - NaN and infinity propagation is not modelled.
- numpy arrays become Dafny sequences, and the energy dictionary becomes the `Energies` record.
- Energy drift bounds for the quartic well and the box are not modelled. Their step is not linear, and no exact shadow energy exists for them. `QuarticForceIsSlope` and `BoxForceIsSlope` give the local second-order error only.
- Simulation.Simulate: the program mutates the particle it is given. The model returns the final particle instead.
- Simulation.Simulate: requires `dt > 0` and a non-zero mass only when `duration > 0`. In that case the source divides by the mass, and with `dt <= 0` it loops forever. With `duration <= 0` the loop never runs, and any `dt` and mass are accepted, as in the program.
- The program performs no validation at construction. Non-positive mass, width, stiffness and `dt` are accepted by every constructor, as the code does, although a stricter design would reject them. The lemmas that need non-negative parameters state them as preconditions.
- Sample counts: for `duration > 0` the loop runs `ceil(duration / dt)` times in exact arithmetic. A run then has `ceil(duration / dt) + 1` samples, which can be one more than `floor(duration / dt) + 1`. For `duration <= 0` a run has one sample.
- Potentials.Sign: nothing is left out here, and this line only records where `sign(0)` arises. With `width >= 0`, `sign` is evaluated only where the displacement is non-zero. With a negative width, `half_width < 0`, so the outside branch is taken even at the center. There `sign(0)` is evaluated and returns 0, as numpy's does, and the model does the same.

=== FILE: harmonic_verlet.dfy ===
/** Energy behaviour of velocity Verlet in a harmonic well.

    The integrator does not conserve the total energy m v^2 / 2 + k d^2 / 2
    (d the displacement from the center) but it conserves, exactly, a
    nearby "shadow" energy whose spring term is scaled by 1 - q, where
    q = k dt^2 / (4 m). For k >= 0, m > 0 and a step below the stability
    limit, q < 1 (that is dt < 2 sqrt(m / k)), the total energy therefore
    oscillates around the shadow energy and does not drift: its deviation
    from the initial value is at most q / (1 - q) times the initial value,
    for every step count. Above that limit the method is unstable and the
    energy can grow without bound.
 */
module HarmonicVerlet {
  import opened Potentials
  import opened Particles
  import opened Verlet

  /** q = k dt^2 / (4 m), the relative size of the step against the period. */
  function StepRatio(k: real, m: real, dt: real): real
    requires m != 0.0
  {
    k * dt * dt / (4.0 * m)
  }

  /** The energy velocity Verlet conserves exactly in Harmonic(k, c). */
  function ShadowEnergy(k: real, c: real, dt: real, p: Particle): real
    requires p.mass != 0.0
  {
    KineticEnergy(p) + (1.0 - StepRatio(k, p.mass, dt)) * Harmonic(k, c).Energy(p.position)
  }

  /** The total energy exceeds the shadow energy by q times the spring energy. */
  lemma TotalIsShadowPlusSpringCorrection(k: real, c: real, dt: real, p: Particle, m: real)
    requires m == p.mass && m != 0.0
    ensures TotalEnergy(Harmonic(k, c), p)
        == ShadowEnergy(k, c, dt, p) + StepRatio(k, m, dt) * Harmonic(k, c).Energy(p.position)
  {
  }

  /** One step conserves the shadow energy exactly. */
  lemma StepConservesShadowEnergy(k: real, c: real, dt: real, p: Particle)
    requires p.mass != 0.0
    ensures ShadowEnergy(k, c, dt, Step(Harmonic(k, c).Force, p, dt)) == ShadowEnergy(k, c, dt, p)
  {
    var q := Step(Harmonic(k, c).Force, p, dt);
    var w := k / p.mass;
    var r := RateForm(w, dt, p.velocity, p.position - c);
    StepKeepsRateForm(k, c, dt, p, q, w);
    ShadowInTermsOfRate(k, c, dt, p, p.mass, w, r);
    ShadowInTermsOfRate(k, c, dt, q, p.mass, w, r);
  }

  /** v^2 + w (1 - w dt^2 / 4) d^2: twice the shadow energy per unit mass,
      for the rate w = k / m. */
  function RateForm(w: real, dt: real, v: real, d: real): real {
    v * v + w * (1.0 - w * dt * dt / 4.0) * (d * d)
  }

  /** The rate form is invariant over one step. */
  lemma StepKeepsRateForm(k: real, c: real, dt: real, p: Particle, q: Particle, w: real)
    requires p.mass != 0.0 && q == Step(Harmonic(k, c).Force, p, dt) && w == k / p.mass
    ensures RateForm(w, dt, q.velocity, q.position - c) == RateForm(w, dt, p.velocity, p.position - c)
  {
    var m := p.mass;
    var pot := Harmonic(k, c);
    var d, v := p.position - c, p.velocity;
    var d1, v1 := q.position - c, q.velocity;
    SpringAcceleration(k, m, d, pot.Force(p.position));
    SpringAcceleration(k, m, d1, pot.Force(q.position));
    var vHalf := v - w * d * (dt / 2.0);
    assert d1 == d + vHalf * dt;
    assert v1 == vHalf - w * d1 * (dt / 2.0);
    ShadowAlgebra(d, v, w, dt, vHalf, d1, v1);
  }

  /** The harmonic force over the mass is -w d with w = k / m. */
  lemma SpringAcceleration(k: real, m: real, d: real, f: real)
    requires m != 0.0 && f == -k * d
    ensures f / m == -(k / m) * d
  {
  }

  /** The shadow energy written with the rate w = k / m. */
  lemma ShadowInTermsOfRate(k: real, c: real, dt: real, p: Particle, m: real, w: real, r: real)
    requires m == p.mass && m != 0.0 && w == k / m
    requires r == RateForm(w, dt, p.velocity, p.position - c)
    ensures ShadowEnergy(k, c, dt, p) == 0.5 * m * r
  {
    var d := p.position - c;
    var q := StepRatio(k, m, dt);
    var u := Harmonic(k, c).Energy(p.position);
    assert u == 0.5 * k * (d * d);
    RateAlgebra(k, m, w, dt, q, d, u);
  }

  /** The arithmetic of ShadowInTermsOfRate, with u the spring energy. */
  lemma RateAlgebra(k: real, m: real, w: real, dt: real, q: real, d: real, u: real)
    requires m != 0.0 && w == k / m && q == k * dt * dt / (4.0 * m) && u == 0.5 * k * (d * d)
    ensures (1.0 - q) * u == 0.5 * m * (w * (1.0 - w * dt * dt / 4.0) * (d * d))
  {
    assert k == w * m;
    assert q == w * dt * dt / 4.0;
  }

  /** The quadratic form v^2 + w (1 - w h^2 / 4) d^2 is invariant under one
      kick-drift-kick step of size h in the field -w d. */
  lemma ShadowAlgebra(d: real, v: real, w: real, h: real, vHalf: real, d1: real, v1: real)
    requires vHalf == v - w * d * (h / 2.0)
    requires d1 == d + vHalf * h
    requires v1 == vHalf - w * d1 * (h / 2.0)
    ensures RateForm(w, h, v1, d1) == RateForm(w, h, v, d)
  {
    var a := 1.0 - w * h * h / 2.0;
    var b := 1.0 - w * h * h / 4.0;
    assert d1 == d * a + h * v;
    assert v1 == v * a - w * h * b * d;
    assert a * a + w * b * (h * h) == 1.0;
    assert v1 * v1 == v * v * (a * a) - 2.0 * (v * a) * (w * h * b * d) + (w * h * b * d) * (w * h * b * d);
    assert d1 * d1 == d * d * (a * a) + 2.0 * (d * a) * (h * v) + (h * v) * (h * v);
  }

  /** Every run conserves the shadow energy. */
  lemma {:induction false} RunConservesShadowEnergy(k: real, c: real, dt: real, p: Particle, n: nat)
    requires p.mass != 0.0
    ensures ShadowEnergy(k, c, dt, Iterate(Harmonic(k, c).Force, p, dt, n)) == ShadowEnergy(k, c, dt, p)
    decreases n
  {
    if n > 0 {
      RunConservesShadowEnergy(k, c, dt, p, n - 1);
      StepConservesShadowEnergy(k, c, dt, Iterate(Harmonic(k, c).Force, p, dt, n - 1));
    }
  }

  /** The total energy of r differs from that of p by q times the change
      of the spring energy. */
  predicate ErrorIsSpringCorrection(k: real, c: real, dt: real, p: Particle, r: Particle)
    requires p.mass != 0.0
  {
    TotalEnergy(Harmonic(k, c), r) - TotalEnergy(Harmonic(k, c), p)
      == StepRatio(k, p.mass, dt) * (Harmonic(k, c).Energy(r.position) - Harmonic(k, c).Energy(p.position))
  }

  /** The exact energy error of a run: the total energy after n steps
      differs from the initial one by q times the change of the spring
      energy. */
  lemma RunEnergyError(k: real, c: real, dt: real, p: Particle, n: nat)
    requires p.mass != 0.0
    ensures var r := Iterate(Harmonic(k, c).Force, p, dt, n);
      TotalEnergy(Harmonic(k, c), r) - TotalEnergy(Harmonic(k, c), p)
        == StepRatio(k, p.mass, dt) * (Harmonic(k, c).Energy(r.position) - Harmonic(k, c).Energy(p.position))
  {
    RunConservesShadowEnergy(k, c, dt, p, n);
    ErrorFromShadow(k, c, dt, p, Iterate(Harmonic(k, c).Force, p, dt, n));
    SpringCorrectionExplicit(k, c, dt, p, Iterate(Harmonic(k, c).Force, p, dt, n));
  }

  /** ErrorIsSpringCorrection, written out. */
  lemma SpringCorrectionExplicit(k: real, c: real, dt: real, p: Particle, r: Particle)
    requires p.mass != 0.0 && ErrorIsSpringCorrection(k, c, dt, p, r)
    ensures TotalEnergy(Harmonic(k, c), r) - TotalEnergy(Harmonic(k, c), p)
        == StepRatio(k, p.mass, dt) * (Harmonic(k, c).Energy(r.position) - Harmonic(k, c).Energy(p.position))
  {
  }

  /** The energy error between two states of equal mass and equal shadow
      energy. */
  lemma ErrorFromShadow(k: real, c: real, dt: real, p: Particle, r: Particle)
    requires p.mass != 0.0 && r.mass == p.mass
    requires ShadowEnergy(k, c, dt, r) == ShadowEnergy(k, c, dt, p)
    ensures ErrorIsSpringCorrection(k, c, dt, p, r)
  {
    TotalIsShadowPlusSpringCorrection(k, c, dt, p, p.mass);
    TotalIsShadowPlusSpringCorrection(k, c, dt, r, p.mass);
    Factor(StepRatio(k, p.mass, dt), Harmonic(k, c).Energy(r.position),
           Harmonic(k, c).Energy(p.position));
  }

  lemma Factor(b: real, x: real, y: real)
    ensures b * x - b * y == b * (x - y)
  {
  }

  /** The energy t is within q / (1 - q) times t0 of t0, written without
      the division: (1 - q) |t - t0| <= q t0. */
  predicate DriftWithin(q: real, t0: real, t: real) {
    (1.0 - q) * Abs(t - t0) <= q * t0
  }

  /** Bounded energy error, for every step count: with a non-negative
      spring, a positive mass and a step below the stability limit (q < 1),
      the total energy stays within q / (1 - q) of its initial value. */
  lemma RunEnergyDriftIsBounded(k: real, c: real, dt: real, p: Particle, n: nat)
    requires k >= 0.0 && p.mass > 0.0
    requires StepRatio(k, p.mass, dt) < 1.0
    ensures DriftWithin(StepRatio(k, p.mass, dt), TotalEnergy(Harmonic(k, c), p),
                        TotalEnergy(Harmonic(k, c), Iterate(Harmonic(k, c).Force, p, dt, n)))
  {
    RunConservesShadowEnergy(k, c, dt, p, n);
    DriftFromShadow(k, c, dt, p, Iterate(Harmonic(k, c).Force, p, dt, n));
  }

  /** The drift bound between any two states of equal mass and equal
      shadow energy. */
  lemma DriftFromShadow(k: real, c: real, dt: real, p: Particle, r: Particle)
    requires k >= 0.0 && p.mass > 0.0 && r.mass == p.mass
    requires StepRatio(k, p.mass, dt) < 1.0
    requires ShadowEnergy(k, c, dt, r) == ShadowEnergy(k, c, dt, p)
    ensures DriftWithin(StepRatio(k, p.mass, dt), TotalEnergy(Harmonic(k, c), p), TotalEnergy(Harmonic(k, c), r))
  {
    StepRatioIsNonNegative(k, p.mass, dt);
    TotalIsShadowPlusSpringCorrection(k, c, dt, p, p.mass);
    TotalIsShadowPlusSpringCorrection(k, c, dt, r, p.mass);
    EnergyIsNonNegative(Harmonic(k, c), p.position);
    EnergyIsNonNegative(Harmonic(k, c), r.position);
    DriftAlgebra(ShadowEnergy(k, c, dt, p), TotalEnergy(Harmonic(k, c), p), TotalEnergy(Harmonic(k, c), r),
                 StepRatio(k, p.mass, dt), Harmonic(k, c).Energy(p.position), Harmonic(k, c).Energy(r.position),
                 KineticEnergy(p), KineticEnergy(r));
  }

  lemma StepRatioIsNonNegative(k: real, m: real, dt: real)
    requires k >= 0.0 && m > 0.0
    ensures StepRatio(k, m, dt) >= 0.0
  {
    SquareIsNonNegative(dt);
    assert k * dt * dt == k * (dt * dt);
    ScaleBound(k, 0.0, dt * dt);
  }

  /** The arithmetic behind the drift bound: with spring energies u0, un,
      kinetic energies k0, kn, shadow energy s and totals t0, tn. */
  lemma DriftAlgebra(s: real, t0: real, tn: real, q: real, u0: real, un: real, k0: real, kn: real)
    requires 0.0 <= q < 1.0 && u0 >= 0.0 && un >= 0.0 && k0 >= 0.0 && kn >= 0.0
    requires s == k0 + (1.0 - q) * u0 && s == kn + (1.0 - q) * un
    requires t0 == s + q * u0 && tn == s + q * un
    ensures DriftWithin(q, t0, tn)
  {
    var r := 1.0 - q;
    ScaledDrift(s, t0, tn, q, r, u0, un, k0, kn);
    assert r * Abs(tn - t0) == (1.0 - q) * Abs(tn - t0);
  }

  /** DriftAlgebra with r = 1 - q as a variable of its own. */
  lemma ScaledDrift(s: real, t0: real, tn: real, q: real, r: real, u0: real, un: real, k0: real, kn: real)
    requires 0.0 <= q && r == 1.0 - q && r > 0.0 && u0 >= 0.0 && un >= 0.0 && k0 >= 0.0 && kn >= 0.0
    requires s == k0 + r * u0 && s == kn + r * un
    requires t0 == s + q * u0 && tn == s + q * un
    ensures r * Abs(tn - t0) <= q * t0
  {
    assert 0.0 <= s <= t0 by {
      ScaleBound(r, 0.0, u0);
      ScaleBound(q, 0.0, u0);
    }
    assert r * (tn - t0) <= q * t0 by {
      OneSide(q, r, s, t0, un, u0);
      MultiplyEqual(tn - t0, q * un - q * u0, r);
    }
    assert r * (t0 - tn) <= q * t0 by {
      OneSide(q, r, s, t0, u0, un);
      MultiplyEqual(t0 - tn, q * u0 - q * un, r);
    }
    AbsBound(r, tn - t0, t0 - tn, q * t0);
  }

  /** One direction of the drift bound: r (q a - q b) <= q t0 when
      r a <= s <= t0. */
  lemma OneSide(q: real, r: real, s: real, t0: real, a: real, b: real)
    requires q >= 0.0 && r >= 0.0 && a >= 0.0 && b >= 0.0 && r * a <= s && 0.0 <= s <= t0
    ensures r * (q * a - q * b) <= q * t0
  {
    assert r * (q * a - q * b) == q * (r * a) - q * (r * b);
    ScaleBound(r, 0.0, b);
    ScaleBound(q, 0.0, r * b);
    ScaleBound(r, 0.0, a);
    ScaleBound(q, r * a, s);
    ScaleBound(q, s, t0);
  }

  /** Bounding both r x and r (-x) bounds r |x|. */
  lemma AbsBound(r: real, x: real, y: real, b: real)
    requires y == -x && r * x <= b && r * y <= b
    ensures r * Abs(x) <= b
  {
    if x >= 0.0 {
      assert Abs(x) == x;
    } else {
      assert Abs(x) == y;
    }
  }
}

=== FILE: particle.dfy ===
/** Kinematic state of one particle in dimensionless 1D space.

    The program keeps this state in a mutable object whose three mutators
    each overwrite one field. Here the state is an immutable record and
    each mutator returns the updated record.
 */
module Particles {

  datatype Particle = Particle(position: real, velocity: real, mass: real, acceleration: real)

  /** A particle created with explicit position and velocity (mass defaults
      to 1), at rest with respect to force: no acceleration yet. */
  function NewParticle(position: real, velocity: real, mass: real := 1.0): (p: Particle)
    ensures p.position == position && p.velocity == velocity && p.mass == mass
    ensures p.acceleration == 0.0
  {
    Particle(position, velocity, mass, 0.0)
  }

  /** Newton's second law: the acceleration becomes the force over the mass.
      The source divides without a guard, so a zero mass is excluded. */
  function ApplyForce(p: Particle, force: real): (q: Particle)
    requires p.mass != 0.0
    ensures q.mass * q.acceleration == force
    ensures q.position == p.position && q.velocity == p.velocity && q.mass == p.mass
  {
    p.(acceleration := force / p.mass)
  }

  /** Drift: the position moves by the velocity times the step. */
  function UpdatePosition(p: Particle, dt: real): (q: Particle)
    ensures q.position - p.position == p.velocity * dt
    ensures q.velocity == p.velocity && q.mass == p.mass && q.acceleration == p.acceleration
  {
    p.(position := p.position + p.velocity * dt)
  }

  /** Kick: the velocity moves by the acceleration times the step. */
  function UpdateVelocity(p: Particle, dt: real): (q: Particle)
    ensures q.velocity - p.velocity == p.acceleration * dt
    ensures q.position == p.position && q.mass == p.mass && q.acceleration == p.acceleration
  {
    p.(velocity := p.velocity + p.acceleration * dt)
  }

  /** Kinetic energy m v^2 / 2; never negative for a non-negative mass. */
  function KineticEnergy(p: Particle): (e: real)
    ensures p.mass >= 0.0 ==> e >= 0.0
    ensures p.velocity == 0.0 ==> e == 0.0
  {
    var v2 := p.velocity * p.velocity;
    assert v2 >= 0.0;
    assert p.mass >= 0.0 ==> p.mass * v2 >= 0.0;
    0.5 * p.mass * v2
  }

  /** Only the last applied force matters. */
  lemma ApplyForceOverwrites(p: Particle, f: real, g: real)
    requires p.mass != 0.0
    ensures ApplyForce(ApplyForce(p, f), g) == ApplyForce(p, g)
  {
  }

  /** A drift over dt is undone by a drift over -dt, and drifts compose. */
  lemma DriftsCompose(p: Particle, s: real, t: real)
    ensures UpdatePosition(UpdatePosition(p, s), t) == UpdatePosition(p, s + t)
    ensures UpdatePosition(UpdatePosition(p, s), -s) == p
  {
    assert p.velocity * s + p.velocity * t == p.velocity * (s + t);
  }

  /** A kick over dt is undone by a kick over -dt, and kicks compose; in
      particular two half kicks make one full kick. */
  lemma KicksCompose(p: Particle, s: real, t: real)
    ensures UpdateVelocity(UpdateVelocity(p, s), t) == UpdateVelocity(p, s + t)
    ensures UpdateVelocity(UpdateVelocity(p, s), -s) == p
  {
    assert p.acceleration * s + p.acceleration * t == p.acceleration * (s + t);
  }

  /** Without acceleration a kick changes nothing, whatever the step. */
  lemma KickWithoutAcceleration(p: Particle, dt: real)
    requires p.acceleration == 0.0
    ensures UpdateVelocity(p, dt) == p
  {
  }
}

=== FILE: potentials.dfy ===
/** Confining force fields of the 1D particle simulator.

    Each field is a pair of pure functions of the position x: the potential
    energy U(x) and the force F(x) = -dU/dx. The four variants of the program
    (free particle, harmonic well, quartic well, soft-walled box) form one
    closed datatype; floating point numbers are modelled as `real`.
 */
module Potentials {

  /** |y| */
  function Abs(y: real): (r: real)
    ensures r >= 0.0
    ensures r == y || r == -y
  {
    if y < 0.0 then -y else y
  }

  /** The sign function of numpy: -1, 0 or 1, with sign(0) == 0. */
  function Sign(y: real): (r: real)
    ensures y > 0.0 ==> r == 1.0
    ensures y < 0.0 ==> r == -1.0
    ensures y == 0.0 ==> r == 0.0
  {
    if y > 0.0 then 1.0 else if y < 0.0 then -1.0 else 0.0
  }

  /** A force field with its construction parameters; the constructor
      defaults are those of the program. */
  datatype Potential =
    | NoPotential
    | Harmonic(k: real := 1.0, center: real := 0.0)
    | Quartic(a: real := 1.0, center: real := 0.0)
    | Box(width: real := 2.0, center: real := 0.0, wallStiffness: real := 1000.0)
  {
    /** The point the field is built around; the free field has none and
        is symmetric about every point, so 0 stands in for it. */
    function Center(): real {
      if NoPotential? then 0.0 else center
    }

    /** Half the width of the box, computed once at construction. */
    function HalfWidth(): real
      requires Box?
    {
      width / 2.0
    }

    /** Every parameter that scales the field is non-negative. */
    predicate NonNegativeParameters() {
      match this
      case NoPotential => true
      case Harmonic(k, _) => k >= 0.0
      case Quartic(a, _) => a >= 0.0
      case Box(width, _, s) => width >= 0.0 && s >= 0.0
    }

    /** Potential energy at position x. */
    function Energy(x: real): real {
      match this
      case NoPotential => 0.0
      case Harmonic(k, c) =>
        var dx := x - c;
        0.5 * k * (dx * dx)
      case Quartic(a, c) =>
        var dx := x - c;
        a * ((dx * dx) * (dx * dx))
      case Box(_, c, s) =>
        var dx := Abs(x - c);
        if dx <= HalfWidth() then 0.0
        else
          var overshoot := dx - HalfWidth();
          0.5 * s * (overshoot * overshoot)
    }

    /** Force on a particle at position x. */
    function Force(x: real): real {
      match this
      case NoPotential => 0.0
      case Harmonic(k, c) => -k * (x - c)
      case Quartic(a, c) =>
        var dx := x - c;
        -4.0 * a * (dx * dx * dx)
      case Box(_, c, s) =>
        var dx := x - c;
        if Abs(dx) <= HalfWidth() then 0.0
        else
          var overshoot := Abs(dx) - HalfWidth();
          -Sign(dx) * s * overshoot
    }
  }

  /** With non-negative parameters every field stores non-negative energy,
      none at its center. */
  lemma EnergyIsNonNegative(p: Potential, x: real)
    requires p.NonNegativeParameters()
    ensures p.Energy(x) >= 0.0
    ensures p.Energy(p.Center()) == 0.0
  {
    match p
    case NoPotential =>
    case Harmonic(k, c) =>
      SquareIsNonNegative(x - c);
      ScaleBound(k, 0.0, (x - c) * (x - c));
    case Quartic(a, c) =>
      SquareIsNonNegative(x - c);
      SquareIsNonNegative((x - c) * (x - c));
      ScaleBound(a, 0.0, ((x - c) * (x - c)) * ((x - c) * (x - c)));
    case Box(_, c, s) =>
      var o := Abs(x - c) - p.HalfWidth();
      SquareIsNonNegative(o);
      ScaleBound(s, 0.0, o * o);
  }

  /** With non-negative parameters no field pushes a particle away from its
      center, and every field is force-free at the center. */
  lemma ForceRestores(p: Potential, x: real)
    requires p.NonNegativeParameters()
    ensures p.Force(x) * (x - p.Center()) <= 0.0
    ensures p.Force(p.Center()) == 0.0
  {
    var dx := x - p.Center();
    assert p.Force(x) * dx <= 0.0 by {
      match p
      case NoPotential =>
      case Harmonic(k, c) =>
        SpringRestores(k, dx, p.Force(x));
      case Quartic(a, c) =>
        CubicRestores(a, dx, p.Force(x));
      case Box(_, c, s) =>
        if Abs(dx) > p.HalfWidth() {
          WallRestores(s, dx, Abs(dx) - p.HalfWidth(), p.Force(x));
        }
    }
    assert p.Force(p.Center()) == 0.0 by {
      assert p.Center() - p.Center() == 0.0;
    }
  }

  lemma SpringRestores(k: real, dx: real, f: real)
    requires k >= 0.0 && f == -k * dx
    ensures f * dx <= 0.0
  {
    SquareIsNonNegative(dx);
    assert f * dx == -(k * (dx * dx));
  }

  lemma CubicRestores(a: real, dx: real, f: real)
    requires a >= 0.0 && f == -4.0 * a * (dx * dx * dx)
    ensures f * dx <= 0.0
  {
    SquareIsNonNegative(dx);
    SquareIsNonNegative(dx * dx);
    assert f * dx == -4.0 * (a * ((dx * dx) * (dx * dx)));
  }

  lemma WallRestores(s: real, dx: real, o: real, f: real)
    requires s >= 0.0 && o >= 0.0 && f == -Sign(dx) * s * o
    ensures f * dx <= 0.0
  {
    assert f * dx == -((Sign(dx) * dx) * (s * o));
    assert Sign(dx) * dx == Abs(dx);
    assert s * o >= 0.0;
  }

  /** The free particle feels nothing anywhere. */
  lemma FreeFieldIsZero()
    ensures forall x :: NoPotential.Energy(x) == 0.0 && NoPotential.Force(x) == 0.0
  {
  }

  /** A stiff harmonic spring restores strictly: the force points back to
      the center from either side, and energy is zero exactly there. */
  lemma HarmonicRestores(k: real, c: real, x: real)
    requires k > 0.0
    ensures x > c ==> Harmonic(k, c).Force(x) < 0.0
    ensures x < c ==> Harmonic(k, c).Force(x) > 0.0
    ensures Harmonic(k, c).Energy(x) == 0.0 <==> x == c
  {
    var dx := x - c;
    if dx != 0.0 {
      assert dx * dx > 0.0;
    }
  }

  /** The quartic well restores strictly as well. */
  lemma QuarticRestores(a: real, c: real, x: real)
    requires a > 0.0
    ensures x > c ==> Quartic(a, c).Force(x) < 0.0
    ensures x < c ==> Quartic(a, c).Force(x) > 0.0
    ensures Quartic(a, c).Energy(x) == 0.0 <==> x == c
  {
    var dx := x - c;
    if dx != 0.0 {
      assert dx * dx > 0.0;
      assert (dx * dx) * (dx * dx) > 0.0;
      if dx > 0.0 {
        assert dx * dx * dx > 0.0;
      } else {
        assert dx * dx * dx == (dx * dx) * dx;
        assert dx * dx * dx < 0.0;
      }
    }
  }

  /** Every field is mirror symmetric about its center: energy is even and
      force is odd in the displacement d. */
  lemma MirrorSymmetry(p: Potential, d: real)
    ensures p.Energy(p.Center() + d) == p.Energy(p.Center() - d)
    ensures p.Force(p.Center() + d) == -p.Force(p.Center() - d)
  {
    var c := p.Center();
    assert (c + d) - c == d && (c - d) - c == -d;
    match p
    case NoPotential =>
    case Harmonic(k, _) =>
    case Quartic(a, _) =>
      assert (-d) * (-d) * (-d) == -(d * d * d);
    case Box(_, _, s) =>
      assert Abs(d) == Abs(-d);
      assert Sign(-d) == -Sign(d);
  }

  /** Inside the box, boundary included, there is neither energy nor force. */
  lemma BoxIsFlatInside(p: Potential, x: real)
    requires p.Box?
    requires Abs(x - p.center) <= p.width / 2.0
    ensures p.Energy(x) == 0.0 && p.Force(x) == 0.0
  {
  }

  /** Both walls belong to the inside of a box of non-negative width. */
  lemma BoxWallsAreInside(p: Potential)
    requires p.Box? && p.width >= 0.0
    ensures p.Energy(p.center + p.width / 2.0) == 0.0
    ensures p.Force(p.center + p.width / 2.0) == 0.0
    ensures p.Energy(p.center - p.width / 2.0) == 0.0
    ensures p.Force(p.center - p.width / 2.0) == 0.0
  {
    BoxIsFlatInside(p, p.center + p.width / 2.0);
    BoxIsFlatInside(p, p.center - p.width / 2.0);
  }

  /** Outside the box the soft wall acts as a spring on the overshoot past
      the wall: energy half the stiffness times the squared overshoot,
      strictly positive for a stiff wall, and a force of magnitude
      stiffness times overshoot pointing back toward the center. */
  lemma BoxWallOutside(p: Potential, x: real)
    requires p.Box? && p.width >= 0.0
    requires Abs(x - p.center) > p.width / 2.0
    ensures var overshoot := Abs(x - p.center) - p.width / 2.0;
      && overshoot > 0.0
      && p.Energy(x) == 0.5 * p.wallStiffness * (overshoot * overshoot)
      && Abs(p.Force(x)) == Abs(p.wallStiffness) * overshoot
      && (p.wallStiffness > 0.0 ==> p.Energy(x) > 0.0)
      && (p.wallStiffness > 0.0 ==> p.Force(x) * (x - p.center) < 0.0)
  {
    var dx := x - p.center;
    var overshoot := Abs(dx) - p.width / 2.0;
    assert overshoot * overshoot > 0.0;
    assert dx != 0.0;
    var s := p.wallStiffness;
    assert p.Force(x) == -Sign(dx) * s * overshoot;
    if s > 0.0 {
      assert Sign(dx) * dx > 0.0;
      assert p.Force(x) * dx == -(Sign(dx) * dx) * (s * overshoot);
    }
  }

  /** U(x + h) - U(x) + F(x) * h: how far the energy change over a step h
      is from the work -F(x) * h predicted by the force at the start. When
      F is minus the slope of U this is of second order in h. */
  function SlopeRemainder(p: Potential, x: real, h: real): real {
    Remainder(p.Energy(x + h), p.Energy(x), p.Force(x), h)
  }

  /** u1 - u0 + f h, for energies u0, u1 at the two ends of a step h and
      the force f at its start. */
  function Remainder(u1: real, u0: real, f: real, h: real): real {
    u1 - u0 + f * h
  }

  /** The harmonic force is exactly minus the slope of its energy: the
      remainder is k h^2 / 2, with no first-order term. */
  lemma HarmonicForceIsSlope(k: real, c: real, x: real, h: real)
    ensures SlopeRemainder(Harmonic(k, c), x, h) == 0.5 * k * (h * h)
  {
    var d := x - c;
    assert (x + h) - c == d + h;
    assert (d + h) * (d + h) == d * d + 2.0 * d * h + h * h;
  }

  lemma SquareIsNonNegative(z: real)
    ensures z * z >= 0.0
  {
  }

  /** 6 d^2 + 4 d h + h^2: the factor of a h^2 in the quartic slope
      remainder at displacement d. */
  function QuarticFactor(d: real, h: real): real {
    6.0 * d * d + 4.0 * d * h + h * h
  }

  /** The quartic force is minus the slope of its energy: the remainder is
      a h^2 times a factor that is never negative (the well is convex for
      a >= 0) and, for |h| <= 1, at most 6 d^2 + 4 |d| + 1, where d = x - c. */
  lemma QuarticForceIsSlope(a: real, c: real, x: real, h: real)
    ensures SlopeRemainder(Quartic(a, c), x, h) == a * ((h * h) * QuarticFactor(x - c, h))
    ensures QuarticFactor(x - c, h) >= 0.0
    ensures -1.0 <= h <= 1.0 ==> QuarticFactor(x - c, h) <= 6.0 * Abs(x - c) * Abs(x - c) + 4.0 * Abs(x - c) + 1.0
  {
    QuarticRemainder(a, c, x, h);
    QuarticFactorBound(x - c, h);
  }

  /** The quartic slope remainder is a times the remainder of the unit
      quartic d^4, where d = x - c. */
  lemma QuarticRemainder(a: real, c: real, x: real, h: real)
    ensures Scaled(SlopeRemainder(Quartic(a, c), x, h), a, (h * h) * QuarticFactor(x - c, h))
  {
    var d, y := x - c, (x + h) - c;
    var p := Quartic(a, c);
    assert Scaled(p.Energy(x + h), a, (y * y) * (y * y));
    assert Scaled(p.Energy(x), a, (d * d) * (d * d));
    assert Scaled(p.Force(x), a, -4.0 * (d * d * d));
    RemainderOfScaled(p.Energy(x + h), p.Energy(x), p.Force(x), h, a,
                      (y * y) * (y * y), (d * d) * (d * d), -4.0 * (d * d * d));
    QuarticExpansion(d, h, y);
  }

  /** Multiplying 0 <= b <= c by m >= 0 keeps the order. */
  lemma ScaleBound(m: real, b: real, c: real)
    requires m >= 0.0 && 0.0 <= b <= c
    ensures 0.0 <= m * b <= m * c
  {
  }

  lemma QuarticExpansion(d: real, h: real, y: real)
    requires y == d + h
    ensures Remainder((y * y) * (y * y), (d * d) * (d * d), -4.0 * (d * d * d), h)
            == (h * h) * QuarticFactor(d, h)
  {
    var s := y * y;
    assert s == d * d + 2.0 * d * h + h * h;
  }

  lemma QuarticFactorBound(d: real, h: real)
    ensures 0.0 <= QuarticFactor(d, h)
    ensures -1.0 <= h <= 1.0 ==> QuarticFactor(d, h) <= 6.0 * Abs(d) * Abs(d) + 4.0 * Abs(d) + 1.0
  {
    var q := QuarticFactor(d, h);
    assert q == 2.0 * d * d + (2.0 * d + h) * (2.0 * d + h);
    SquareIsNonNegative(d);
    SquareIsNonNegative(2.0 * d + h);
    assert Abs(d) * Abs(d) == d * d;
    if -1.0 <= h <= 1.0 {
      ProductWithinUnit(d, h);
    }
  }

  /** 0 <= r <= s h^2 / 2: a slope remainder of second order in the step
      h, with constant s. */
  predicate SecondOrder(r: real, s: real, h: real) {
    0.0 <= r <= s * (h * h / 2.0)
  }

  /** The box force is minus the slope of the box energy: for a
      non-negative stiffness s and width, the remainder over a step h lies
      between 0 and s h^2 / 2. */
  lemma BoxForceIsSlope(p: Potential, x: real, h: real)
    requires p.Box? && p.width >= 0.0 && p.wallStiffness >= 0.0
    ensures 0.0 <= SlopeRemainder(p, x, h) <= p.wallStiffness * (h * h / 2.0)
  {
    BoxRemainderIsScaled(p, x, h);
    WallRemainderBounds(p.width / 2.0, x - p.center, h);
    ScaledSecondOrder(SlopeRemainder(p, x, h), p.wallStiffness, WallRemainder(p.width / 2.0, x - p.center, h), h);
    assert SecondOrder(SlopeRemainder(p, x, h), p.wallStiffness, h);
  }

  /** A remainder s times a unit remainder within [0, h^2 / 2]. */
  lemma ScaledSecondOrder(r: real, s: real, w: real, h: real)
    requires s >= 0.0 && Scaled(r, s, w) && 0.0 <= w <= h * h / 2.0
    ensures SecondOrder(r, s, h)
  {
    ScaleBound(s, w, h * h / 2.0);
  }

  /** e is s times a. */
  predicate Scaled(e: real, s: real, a: real) {
    e == s * a
  }

  /** The box's slope remainder is the unit wall's, scaled by the stiffness. */
  lemma BoxRemainderIsScaled(p: Potential, x: real, h: real)
    requires p.Box?
    ensures Scaled(SlopeRemainder(p, x, h), p.wallStiffness, WallRemainder(p.width / 2.0, x - p.center, h))
  {
    BoxIsScaledWall(p, x + h, (x - p.center) + h);
    BoxIsScaledWall(p, x, x - p.center);
    RemainderOfScaled(p.Energy(x + h), p.Energy(x), p.Force(x), h, p.wallStiffness,
                      WallEnergy(p.width / 2.0, (x - p.center) + h), WallEnergy(p.width / 2.0, x - p.center),
                      -WallSlope(p.width / 2.0, x - p.center));
  }

  /** The remainder is linear: scaling energies and force by s scales it
      by s. */
  lemma RemainderOfScaled(e1: real, e0: real, f: real, h: real, s: real, a1: real, a0: real, g: real)
    requires Scaled(e1, s, a1) && Scaled(e0, s, a0) && Scaled(f, s, g)
    ensures Scaled(Remainder(e1, e0, f, h), s, Remainder(a1, a0, g, h))
  {
    MultiplyEqual(f, s * g, h);
    assert s * a1 - s * a0 + (s * g) * h == s * (a1 - a0 + g * h);
  }

  lemma MultiplyEqual(a: real, b: real, c: real)
    requires a == b
    ensures a * c == b * c
  {
  }

  /** A box is a unit wall scaled by the wall stiffness, in energy and in
      force; with WallRemainderBounds this makes the box force minus the
      slope of the box energy, to second order in the step. */
  lemma BoxIsScaledWall(p: Potential, x: real, y: real)
    requires p.Box? && y == x - p.center
    ensures Scaled(p.Energy(x), p.wallStiffness, WallEnergy(p.width / 2.0, y))
    ensures Scaled(p.Force(x), p.wallStiffness, -WallSlope(p.width / 2.0, y))
  {
    var dx := x - p.center;
    var hw := p.width / 2.0;
    var s := p.wallStiffness;
    if Abs(dx) > hw {
      var o := Abs(dx) - hw;
      assert 0.5 * s * (o * o) == s * (0.5 * (o * o));
      assert -Sign(dx) * s * o == s * -(Sign(dx) * o);
    }
  }

  /** Energy of a unit-stiffness soft wall at half-width hw, displacement y. */
  function WallEnergy(hw: real, y: real): real {
    if Abs(y) <= hw then 0.0
    else
      var o := Abs(y) - hw;
      0.5 * (o * o)
  }

  /** Slope of WallEnergy at y. */
  function WallSlope(hw: real, y: real): real {
    if Abs(y) <= hw then 0.0 else Sign(y) * (Abs(y) - hw)
  }

  /** Second-order remainder of the unit wall over a step h. */
  function WallRemainder(hw: real, y: real, h: real): real {
    Remainder(WallEnergy(hw, y + h), WallEnergy(hw, y), -WallSlope(hw, y), h)
  }

  /** The unit wall's slope is its derivative: the wall is convex and its
      slope changes by at most the step, so the remainder over a step h
      lies between 0 and h * h / 2. */
  lemma WallRemainderBounds(hw: real, y: real, h: real)
    requires hw >= 0.0
    ensures 0.0 <= WallRemainder(hw, y, h) <= h * h / 2.0
  {
    if y < -hw {
      WallRemainderMirror(hw, y, h);
      WallRemainderRight(hw, -y, -h);
      assert (-h) * (-h) == h * h;
    } else if y > hw {
      WallRemainderRight(hw, y, h);
    } else {
      WallRemainderInside(hw, y, h);
    }
  }

  /** The walls are mirror images, so the remainder is unchanged when both
      the displacement and the step change sign. */
  lemma WallRemainderMirror(hw: real, y: real, h: real)
    ensures WallRemainder(hw, y, h) == WallRemainder(hw, -y, -h)
  {
    WallIsEven(hw, y + h, -y + -h);
    WallIsEven(hw, y, -y);
    RemainderMirror(WallEnergy(hw, y + h), WallEnergy(hw, y), -WallSlope(hw, y), h);
  }

  /** The unit wall's energy is even and its slope odd. */
  lemma WallIsEven(hw: real, y: real, z: real)
    requires z == -y
    ensures WallEnergy(hw, z) == WallEnergy(hw, y)
    ensures WallSlope(hw, z) == -WallSlope(hw, y)
  {
    assert Abs(z) == Abs(y);
  }

  /** Reversing both the slope and the step leaves a remainder unchanged. */
  lemma RemainderMirror(u1: real, u0: real, f: real, h: real)
    ensures Remainder(u1, u0, f, h) == Remainder(u1, u0, -f, -h)
  {
  }

  lemma WallRemainderInside(hw: real, y: real, h: real)
    requires hw >= 0.0 && Abs(y) <= hw
    ensures 0.0 <= WallRemainder(hw, y, h) <= h * h / 2.0
  {
    var y' := y + h;
    var e1 := WallEnergy(hw, y');
    assert WallRemainder(hw, y, h) == e1 by {
      RemainderParts(hw, y, h, e1, 0.0, 0.0);
    }
    if Abs(y') > hw {
      var o := Abs(y') - hw;
      assert 0.0 < o <= Abs(h);
      WallEnergyOutside(hw, y', o);
      SquareBelow(o, Abs(h));
      assert Abs(h) * Abs(h) == h * h;
    }
  }

  lemma SquareBelow(a: real, b: real)
    requires 0.0 <= a <= b
    ensures a * a <= b * b
  {
    assert a * a <= a * b <= b * b;
  }

  lemma WallRemainderRight(hw: real, y: real, h: real)
    requires hw >= 0.0 && y > hw
    ensures 0.0 <= WallRemainder(hw, y, h) <= h * h / 2.0
  {
    var y' := y + h;
    var u := y - hw;
    var e1 := WallEnergy(hw, y');
    assert WallRemainder(hw, y, h) == e1 - 0.5 * (u * u) - u * h by {
      WallEnergyOutside(hw, y, u);
      assert WallSlope(hw, y) == u;
      RemainderParts(hw, y, h, e1, 0.5 * (u * u), u);
    }
    if y' > hw {
      assert e1 == 0.5 * ((u + h) * (u + h)) by {
        WallEnergyOutside(hw, y', u + h);
      }
      FallsOnWall(u, h, WallRemainder(hw, y, h));
    } else if y' >= -hw {
      assert e1 == 0.0;
      FallsInside(u, h, WallRemainder(hw, y, h));
    } else {
      var t := u + h + 2.0 * hw;
      assert e1 == 0.5 * (t * t) by {
        WallEnergyOutside(hw, y', -t);
        assert (-t) * (-t) == t * t;
      }
      FallsPastOtherWall(u, h, hw, t, WallRemainder(hw, y, h));
    }
  }

  /** The unit wall's energy outside, in terms of the overshoot o. */
  lemma WallEnergyOutside(hw: real, y: real, o: real)
    requires Abs(y) > hw && o == Abs(y) - hw
    ensures WallEnergy(hw, y) == 0.5 * (o * o)
  {
  }

  /** The wall remainder assembled from its three parts. */
  lemma RemainderParts(hw: real, y: real, h: real, e1: real, e0: real, s: real)
    requires e1 == WallEnergy(hw, y + h) && e0 == WallEnergy(hw, y) && s == WallSlope(hw, y)
    ensures WallRemainder(hw, y, h) == e1 - e0 - s * h
  {
  }

  lemma FallsOnWall(u: real, h: real, r: real)
    requires r == 0.5 * ((u + h) * (u + h)) - 0.5 * (u * u) - u * h
    ensures r == h * h / 2.0
  {
  }

  lemma FallsInside(u: real, h: real, r: real)
    requires u > 0.0 && h <= -u
    requires r == 0.0 - 0.5 * (u * u) - u * h
    ensures 0.0 <= r <= h * h / 2.0
  {
    assert h * h / 2.0 - r == 0.5 * ((h + u) * (h + u));
    SquareIsNonNegative(h + u);
    assert r == u * (-0.5 * u - h);
    assert -0.5 * u - h >= 0.0;
  }

  lemma FallsPastOtherWall(u: real, h: real, hw: real, t: real, r: real)
    requires u > 0.0 && hw >= 0.0 && t == u + h + 2.0 * hw && t < 0.0
    requires r == 0.5 * (t * t) - 0.5 * (u * u) - u * h
    ensures 0.0 <= r <= h * h / 2.0
  {
    assert r == 0.5 * ((t - u) * (t - u)) + 2.0 * u * hw;
    SquareIsNonNegative(t - u);
    assert u * hw >= 0.0;
    assert h * h / 2.0 - r == 0.5 * ((u + h) * (u + h)) - 0.5 * (t * t);
    SquareBelow(-t, -(u + h));
  }

  /** d * h never exceeds |d| when |h| <= 1. */
  lemma ProductWithinUnit(d: real, h: real)
    requires -1.0 <= h <= 1.0
    ensures d * h <= Abs(d) && h * h <= 1.0
  {
    if d >= 0.0 {
      assert d * h <= d * 1.0;
    } else {
      assert d * h <= (-d) * 1.0;
    }
    if h >= 0.0 {
      assert h * h <= h * 1.0;
    } else {
      assert h * h <= (-h) * 1.0;
    }
  }
}

=== FILE: simulation.dfy ===
/** The simulation driver: run velocity Verlet from a particle in a
    potential until the accumulated time reaches the duration, sampling
    time, position, velocity and the three energies before the first step
    and after every step. */
module Simulation {
  import opened Potentials
  import opened Particles
  import opened Verlet
  import opened HarmonicVerlet

  /** The three energy series of a run, keyed as in the program. */
  datatype Energies = Energies(kinetic: seq<real>, potential: seq<real>, total: seq<real>)

  /** Everything a run returns. */
  datatype Trajectory = Trajectory(times: seq<real>, positions: seq<real>, velocities: seq<real>,
                                   energies: Energies)

  /** All five series have one entry per sample, and there is at least one. */
  predicate Aligned(t: Trajectory) {
    && |t.times| > 0
    && |t.positions| == |t.times|
    && |t.velocities| == |t.times|
    && |t.energies.kinetic| == |t.times|
    && |t.energies.potential| == |t.times|
    && |t.energies.total| == |t.times|
  }

  /** Sample i of t records the state s: its position and velocity, its
      kinetic energy, the potential at its position and their sum. */
  predicate RecordsState(t: Trajectory, i: nat, pot: Potential, s: Particle)
    requires Aligned(t) && i < |t.times|
  {
    && t.positions[i] == s.position
    && t.velocities[i] == s.velocity
    && t.energies.kinetic[i] == KineticEnergy(s)
    && t.energies.potential[i] == pot.Energy(s.position)
    && t.energies.total[i] == t.energies.kinetic[i] + t.energies.potential[i]
  }

  /** t samples the run of the given particle in pot with step dt: sample
      i is taken at time i dt and records the state after i steps. */
  predicate SamplesRun(t: Trajectory, pot: Potential, particle: Particle, dt: real) {
    && Aligned(t)
    && (|t.times| > 1 ==> particle.mass != 0.0)
    && (forall i :: 0 <= i < |t.times| ==> t.times[i] == i as real * dt)
    && (forall i {:trigger t.positions[i]} :: 0 <= i < |t.times| ==> RecordsState(t, i, pot, Iterate(pot.Force, particle, dt, i)))
  }

  /** Runs the simulation. The program mutates the particle in place; here
      its final state is returned alongside the trajectory. Stepping needs a
      positive time step (otherwise the loop never ends) and a non-zero mass
      (the force is divided by it), but only when a step is taken at all. */
  method Simulate(particle: Particle, pot: Potential, duration: real := 10.0, dt: real := 0.01)
    returns (traj: Trajectory, final: Particle)
    requires duration > 0.0 ==> dt > 0.0 && particle.mass != 0.0
    ensures SamplesRun(traj, pot, particle, dt)
    ensures |traj.times| == StepCount(duration, dt) + 1
    ensures duration <= 0.0 ==> |traj.times| == 1
    ensures duration > 0.0 ==> duration <= traj.times[|traj.times| - 1] < duration + dt
    ensures final == Iterate(pot.Force, particle, dt, |traj.times| - 1)
    ensures final.mass == particle.mass
  {
    var p := particle;
    var time := 0.0;
    var times := [time];
    var positions := [p.position];
    var velocities := [p.velocity];
    var ke := [KineticEnergy(p)];
    var pe := [pot.Energy(p.position)];
    var total := [ke[0] + pe[0]];
    ghost var count := StepCount(duration, dt);
    FirstSample(Trajectory(times, positions, velocities, Energies(ke, pe, total)), pot, particle, dt);
    while time < duration
      invariant SamplesRun(Trajectory(times, positions, velocities, Energies(ke, pe, total)), pot, particle, dt)
      invariant |times| <= count + 1
      invariant time == times[|times| - 1]
      invariant p == Iterate(pot.Force, particle, dt, |times| - 1)
      decreases count + 1 - |times|
    {
      assert duration > 0.0;
      StepBeforeEnd(|times| - 1, count, dt, duration);
      ghost var old_times, old_positions, old_velocities := times, positions, velocities;
      ghost var old_ke, old_pe, old_total := ke, pe, total;
      ghost var before := p;
      p := ApplyForce(p, pot.Force(p.position));
      p := UpdateVelocity(p, dt / 2.0);
      p := UpdatePosition(p, dt);
      p := ApplyForce(p, pot.Force(p.position));
      p := UpdateVelocity(p, dt / 2.0);
      assert p == Step(pot.Force, before, dt);
      time := time + dt;
      times := times + [time];
      positions := positions + [p.position];
      velocities := velocities + [p.velocity];
      ke := ke + [KineticEnergy(p)];
      pe := pe + [pot.Energy(p.position)];
      total := total + [ke[|ke| - 1] + pe[|pe| - 1]];
      ExtendRun(Trajectory(old_times, old_positions, old_velocities, Energies(old_ke, old_pe, old_total)),
                Trajectory(times, positions, velocities, Energies(ke, pe, total)), pot, particle, dt, p);
    }
    traj := Trajectory(times, positions, velocities, Energies(ke, pe, total));
    final := p;
    RunEndsAtDuration(traj, pot, particle, duration, dt);
  }

  /** With a non-negative mass every kinetic-energy sample is non-negative. */
  lemma KineticSamplesAreNonNegative(t: Trajectory, pot: Potential, particle: Particle, dt: real)
    requires SamplesRun(t, pot, particle, dt) && particle.mass >= 0.0
    ensures forall i :: 0 <= i < |t.times| ==> t.energies.kinetic[i] >= 0.0
  {
    forall i | 0 <= i < |t.times|
      ensures t.energies.kinetic[i] >= 0.0
    {
      SampleAt(t, pot, particle, dt, i);
    }
  }

  /** The first sample is the initial state at time 0. */
  lemma FirstSampleIsInitialState(t: Trajectory, pot: Potential, particle: Particle, dt: real)
    requires SamplesRun(t, pot, particle, dt)
    ensures t.times[0] == 0.0
    ensures t.positions[0] == particle.position && t.velocities[0] == particle.velocity
    ensures t.energies.kinetic[0] == KineticEnergy(particle)
    ensures t.energies.potential[0] == pot.Energy(particle.position)
  {
    SampleAt(t, pot, particle, dt, 0);
  }

  /** In a field with non-negative parameters every potential-energy sample
      is non-negative. */
  lemma PotentialSamplesAreNonNegative(t: Trajectory, pot: Potential, particle: Particle, dt: real)
    requires SamplesRun(t, pot, particle, dt) && pot.NonNegativeParameters()
    ensures forall i :: 0 <= i < |t.times| ==> t.energies.potential[i] >= 0.0
  {
    forall i | 0 <= i < |t.times|
      ensures t.energies.potential[i] >= 0.0
    {
      SampleAt(t, pot, particle, dt, i);
      EnergyIsNonNegative(pot, Iterate(pot.Force, particle, dt, i).position);
    }
  }

  /** In every field each total-energy sample is the sum of the kinetic and
      the potential sample, and is the total energy of the state after that
      many steps. */
  lemma TotalSamplesAreSums(t: Trajectory, pot: Potential, particle: Particle, dt: real)
    requires SamplesRun(t, pot, particle, dt)
    ensures forall i :: 0 <= i < |t.times| ==>
      t.energies.total[i] == t.energies.kinetic[i] + t.energies.potential[i]
    ensures forall i :: 0 <= i < |t.times| ==>
      t.energies.total[i] == TotalEnergy(pot, Iterate(pot.Force, particle, dt, i))
  {
    forall i | 0 <= i < |t.times|
      ensures t.energies.total[i] == t.energies.kinetic[i] + t.energies.potential[i]
      ensures t.energies.total[i] == TotalEnergy(pot, Iterate(pot.Force, particle, dt, i))
    {
      SampleAt(t, pot, particle, dt, i);
    }
  }

  /** Sample i of a sampled run records the state after i steps. */
  lemma SampleAt(t: Trajectory, pot: Potential, particle: Particle, dt: real, i: nat)
    requires SamplesRun(t, pot, particle, dt) && i < |t.times|
    ensures RecordsState(t, i, pot, Iterate(pot.Force, particle, dt, i))
  {
    assert t.positions[i] == Iterate(pot.Force, particle, dt, i).position;
  }

  /** Without a potential the samples trace uniform motion: constant
      velocity, and position linear in the sample time. */
  lemma FreeRunIsLinear(t: Trajectory, particle: Particle, dt: real)
    requires SamplesRun(t, NoPotential, particle, dt)
    ensures forall i :: 0 <= i < |t.times| ==>
      t.velocities[i] == particle.velocity
      && t.positions[i] == particle.position + particle.velocity * t.times[i]
  {
    forall i | 0 <= i < |t.times|
      ensures t.velocities[i] == particle.velocity
      ensures t.positions[i] == particle.position + particle.velocity * t.times[i]
    {
      SampleAt(t, NoPotential, particle, dt, i);
      if i > 0 {
        FreeFieldIsZero();
        FreeMotionIsLinear(NoPotential.Force, particle, dt, i);
      }
    }
  }

  /** In a harmonic well with a step below the stability limit, no
      total-energy sample strays from the first by more than q / (1 - q)
      times the first. */
  lemma HarmonicRunDriftIsBounded(t: Trajectory, pot: Potential, particle: Particle, dt: real)
    requires SamplesRun(t, pot, particle, dt)
    requires pot.Harmonic? && pot.k >= 0.0 && particle.mass > 0.0
    requires StepRatio(pot.k, particle.mass, dt) < 1.0
    ensures forall i :: 0 <= i < |t.times| ==>
      DriftWithin(StepRatio(pot.k, particle.mass, dt), t.energies.total[0], t.energies.total[i])
  {
    forall i | 0 <= i < |t.times| {
      SampleDriftIsBounded(t, pot, particle, dt, i);
    }
  }

  /** The drift bound for one sample. */
  lemma SampleDriftIsBounded(t: Trajectory, pot: Potential, particle: Particle, dt: real, i: nat)
    requires SamplesRun(t, pot, particle, dt) && i < |t.times|
    requires pot.Harmonic? && pot.k >= 0.0 && particle.mass > 0.0
    requires StepRatio(pot.k, particle.mass, dt) < 1.0
    ensures DriftWithin(StepRatio(pot.k, particle.mass, dt), t.energies.total[0], t.energies.total[i])
  {
    SampleIsTotal(t, pot, particle, dt, i);
    SampleIsTotal(t, pot, particle, dt, 0);
    DriftOfTotals(pot, dt, particle, i, t.energies.total[i], t.energies.total[0]);
  }

  /** The energy drift bound of a run, stated for two given totals. */
  lemma DriftOfTotals(pot: Potential, dt: real, p: Particle, n: nat, a: real, b: real)
    requires pot.Harmonic? && pot.k >= 0.0 && p.mass > 0.0 && StepRatio(pot.k, p.mass, dt) < 1.0
    requires a == TotalEnergy(pot, Iterate(pot.Force, p, dt, n))
    requires b == TotalEnergy(pot, p)
    ensures DriftWithin(StepRatio(pot.k, p.mass, dt), b, a)
  {
    assert pot == Harmonic(pot.k, pot.center);
    RunEnergyDriftIsBounded(pot.k, pot.center, dt, p, n);
  }

  /** The total-energy sample i of a sampled run is the total energy of the
      state after i steps. */
  lemma SampleIsTotal(t: Trajectory, pot: Potential, particle: Particle, dt: real, i: nat)
    requires SamplesRun(t, pot, particle, dt) && i < |t.times|
    ensures t.energies.total[i] == TotalEnergy(pot, Iterate(pot.Force, particle, dt, i))
  {
    SampleAt(t, pot, particle, dt, i);
  }

  /** Appending the state after one more step, sampled as the loop body
      samples it, extends a sampled run by one sample. */
  lemma ExtendRun(t: Trajectory, t': Trajectory, pot: Potential, particle: Particle, dt: real, s: Particle)
    requires SamplesRun(t, pot, particle, dt) && particle.mass != 0.0
    requires s == Iterate(pot.Force, particle, dt, |t.times|)
    requires t'.times == t.times + [t.times[|t.times| - 1] + dt]
    requires t'.positions == t.positions + [s.position]
    requires t'.velocities == t.velocities + [s.velocity]
    requires t'.energies.kinetic == t.energies.kinetic + [KineticEnergy(s)]
    requires t'.energies.potential == t.energies.potential + [pot.Energy(s.position)]
    requires t'.energies.total == t.energies.total + [KineticEnergy(s) + pot.Energy(s.position)]
    ensures SamplesRun(t', pot, particle, dt)
  {
    var n := |t.times|;
    assert Aligned(t');
    ExtendTimes(t.times, t'.times, dt);
    assert forall i :: 0 <= i < |t'.times| ==> RecordsState(t', i, pot, Iterate(pot.Force, particle, dt, i)) by {
      forall i | 0 <= i < |t'.times|
        ensures RecordsState(t', i, pot, Iterate(pot.Force, particle, dt, i))
      {
        if i < n {
          SampleAt(t, pot, particle, dt, i);
        }
      }
    }
  }

  /** Adding dt to the last of the times 0, dt, ..., (n - 1) dt gives n dt. */
  lemma ExtendTimes(times: seq<real>, times': seq<real>, dt: real)
    requires |times| > 0 && forall i :: 0 <= i < |times| ==> times[i] == i as real * dt
    requires times' == times + [times[|times| - 1] + dt]
    ensures forall i :: 0 <= i < |times'| ==> times'[i] == i as real * dt
  {
    var n := |times|;
    NextTime(n - 1, dt);
    assert times'[n] == n as real * dt;
  }

  /** The initial sample alone samples a run of no steps. */
  lemma FirstSample(t: Trajectory, pot: Potential, particle: Particle, dt: real)
    requires t.times == [0.0] && t.positions == [particle.position] && t.velocities == [particle.velocity]
    requires t.energies.kinetic == [KineticEnergy(particle)]
    requires t.energies.potential == [pot.Energy(particle.position)]
    requires t.energies.total == [KineticEnergy(particle) + pot.Energy(particle.position)]
    ensures SamplesRun(t, pot, particle, dt)
  {
    assert RecordsState(t, 0, pot, Iterate(pot.Force, particle, dt, 0));
  }

  /** A sampled run whose last sample time has reached the duration, and
      that took no more than the planned number of steps, took exactly that
      many, and its last sample time lies in [duration, duration + dt). */
  lemma RunEndsAtDuration(t: Trajectory, pot: Potential, particle: Particle, duration: real, dt: real)
    requires duration > 0.0 ==> dt > 0.0
    requires SamplesRun(t, pot, particle, dt)
    requires |t.times| <= StepCount(duration, dt) + 1
    requires t.times[|t.times| - 1] >= duration
    ensures |t.times| == StepCount(duration, dt) + 1
    ensures duration > 0.0 ==> duration <= t.times[|t.times| - 1] < duration + dt
  {
    var n := |t.times| - 1;
    assert t.times[n] == n as real * dt;
    LoopEndsAtCount(n, StepCount(duration, dt), dt, duration);
    if duration > 0.0 {
      LastSampleTime(n, dt, duration);
    }
  }

  /** While the accumulated time is below the duration, fewer than the
      planned number of steps have been taken. */
  lemma StepBeforeEnd(n: nat, count: nat, dt: real, duration: real)
    requires dt > 0.0 && count as real * dt >= duration && n as real * dt < duration
    ensures n < count
  {
  }

  /** Once the accumulated time reaches the duration, exactly the planned
      number of steps have been taken. */
  lemma LoopEndsAtCount(n: nat, count: nat, dt: real, duration: real)
    requires n <= count && n as real * dt >= duration
    requires duration > 0.0 ==> dt > 0.0
    requires count == StepCount(duration, dt)
    ensures n == count
  {
  }

  /** The time after the last step lies in [duration, duration + dt). */
  lemma LastSampleTime(count: nat, dt: real, duration: real)
    requires duration > 0.0 && dt > 0.0 && count == StepCount(duration, dt)
    ensures duration <= count as real * dt < duration + dt
  {
    assert count > 0;
    assert count as real * dt == (count - 1) as real * dt + dt;
  }

  lemma NextTime(n: int, dt: real)
    ensures n as real * dt + dt == (n + 1) as real * dt
  {
  }
}

=== FILE: verlet.dfy ===
/** The velocity-Verlet integrator: one kick-drift-kick step, its n-fold
    iterate, and the number of steps a run of a given duration takes. */
module Verlet {
  import opened Potentials
  import opened Particles

  /** One velocity-Verlet step of size dt in the force field `force`,
      performed with the particle's own mutators in the program's order:
      apply the force at the old position, half kick, full drift, apply the
      force at the new position, half kick. The contract is the closed
      form of that sequence. */
  function Step(force: real -> real, p: Particle, dt: real): (q: Particle)
    requires p.mass != 0.0
    ensures q.mass == p.mass
    ensures var vHalf := p.velocity + force(p.position) / p.mass * (dt / 2.0);
      && q.position == p.position + vHalf * dt
      && q.velocity == vHalf + force(q.position) / p.mass * (dt / 2.0)
      && q.acceleration == force(q.position) / p.mass
  {
    var kicked := UpdateVelocity(ApplyForce(p, force(p.position)), dt / 2.0);
    var drifted := UpdatePosition(kicked, dt);
    UpdateVelocity(ApplyForce(drifted, force(drifted.position)), dt / 2.0)
  }

  /** The state after n steps. No step needs the mass when n == 0. */
  function Iterate(force: real -> real, p: Particle, dt: real, n: nat): (q: Particle)
    requires n > 0 ==> p.mass != 0.0
    ensures q.mass == p.mass
    ensures n == 0 ==> q == p
    decreases n
  {
    if n == 0 then p else Step(force, Iterate(force, p, dt, n - 1), dt)
  }

  /** Two states that agree on everything a step reads. The acceleration
      is overwritten before it is used, so it is not part of the phase. */
  predicate SamePhase(p: Particle, q: Particle) {
    p.position == q.position && p.velocity == q.velocity && p.mass == q.mass
  }

  /** Kinetic plus potential energy. */
  function TotalEnergy(pot: Potential, p: Particle): real {
    KineticEnergy(p) + pot.Energy(p.position)
  }

  /** Number of steps a run takes: the least n with n * dt >= duration,
      that is ceil(duration / dt), and none when duration <= 0. */
  function StepCount(duration: real, dt: real): (n: nat)
    requires duration > 0.0 ==> dt > 0.0
    ensures n as real * dt >= duration || (n == 0 && duration <= 0.0)
    ensures n > 0 ==> (n - 1) as real * dt < duration
    ensures duration <= 0.0 ==> n == 0
  {
    if duration <= 0.0 then 0
    else
      var q := duration / dt;
      assert q > 0.0;
      var f := q.Floor;
      var n: nat := if f as real == q then f else f + 1;
      CeilingTimesStep(duration, dt, q, n);
      n
  }

  lemma CeilingTimesStep(duration: real, dt: real, q: real, n: nat)
    requires dt > 0.0 && q == duration / dt
    requires q <= n as real < q + 1.0
    ensures n as real * dt >= duration
    ensures n > 0 ==> (n - 1) as real * dt < duration
  {
    assert q * dt == duration;
    assert n as real * dt >= q * dt;
    if n > 0 {
      var k := (n - 1) as real;
      assert k == n as real - 1.0;
      assert k < q;
      MultiplyStrict(k, q, dt);
      assert k * dt < duration;
    }
  }

  lemma MultiplyStrict(a: real, b: real, c: real)
    requires a < b && c > 0.0
    ensures a * c < b * c
  {
  }

  /** A step never reads the incoming acceleration. */
  lemma StepReadsOnlyPhase(force: real -> real, p: Particle, q: Particle, dt: real)
    requires p.mass != 0.0 && SamePhase(p, q)
    ensures Step(force, p, dt) == Step(force, q, dt)
  {
  }

  /** Velocity Verlet is time reversible: stepping back by -dt from the
      result of a step of dt returns to the starting position and velocity,
      exactly, in every force field. */
  lemma StepIsReversible(force: real -> real, p: Particle, dt: real)
    requires p.mass != 0.0
    ensures SamePhase(Step(force, Step(force, p, dt), -dt), p)
  {
    var q := Step(force, p, dt);
    var r := Step(force, q, -dt);
    HalfKicksCancel(p.position, p.velocity, p.mass, dt, force(p.position), force(q.position),
                    q.position, q.velocity, r.position);
    HalfKicksCancelVelocity(p.velocity, p.mass, dt, force(p.position), force(q.position),
                            q.velocity, r.velocity, force(r.position));
  }

  /** The algebra of reversal, for position: the backward half kick undoes
      the forward second half kick, and the backward drift the forward one. */
  lemma HalfKicksCancel(x: real, v: real, m: real, dt: real, f0: real, f1: real,
                        x1: real, v1: real, x2: real)
    requires m != 0.0
    requires x1 == x + (v + f0 / m * (dt / 2.0)) * dt
    requires v1 == (v + f0 / m * (dt / 2.0)) + f1 / m * (dt / 2.0)
    requires x2 == x1 + (v1 + f1 / m * (-dt / 2.0)) * -dt
    ensures x2 == x
  {
    var vHalf := v + f0 / m * (dt / 2.0);
    assert v1 + f1 / m * (-dt / 2.0) == vHalf;
  }

  /** The algebra of reversal, for velocity, once the particle is back at
      its starting position and so feels the starting force f0 again. */
  lemma HalfKicksCancelVelocity(v: real, m: real, dt: real, f0: real, f1: real,
                                v1: real, v2: real, f2: real)
    requires m != 0.0
    requires v1 == (v + f0 / m * (dt / 2.0)) + f1 / m * (dt / 2.0)
    requires f2 == f0
    requires v2 == (v1 + f1 / m * (-dt / 2.0)) + f2 / m * (-dt / 2.0)
    ensures v2 == v
  {
  }

  /** The first of n steps can be split off the front. */
  lemma {:induction false} IterateFirstStep(force: real -> real, p: Particle, dt: real, n: nat)
    requires n > 0 && p.mass != 0.0
    ensures Iterate(force, p, dt, n) == Iterate(force, Step(force, p, dt), dt, n - 1)
    decreases n
  {
    if n > 1 {
      IterateFirstStep(force, p, dt, n - 1);
    }
  }

  /** Runs from states in the same phase stay in the same phase. */
  lemma {:induction false} IteratePreservesPhase(force: real -> real, p: Particle, q: Particle, dt: real, n: nat)
    requires p.mass != 0.0 && SamePhase(p, q)
    ensures SamePhase(Iterate(force, p, dt, n), Iterate(force, q, dt, n))
    decreases n
  {
    if n > 0 {
      IteratePreservesPhase(force, p, q, dt, n - 1);
      var p', q' := Iterate(force, p, dt, n - 1), Iterate(force, q, dt, n - 1);
      StepReadsOnlyPhase(force, p', q', dt);
    }
  }

  /** A whole run is reversible: n steps of -dt from the end of n steps of
      dt return to the initial position and velocity. */
  lemma {:induction false} RunIsReversible(force: real -> real, p: Particle, dt: real, n: nat)
    requires p.mass != 0.0
    ensures SamePhase(Iterate(force, Iterate(force, p, dt, n), -dt, n), p)
    decreases n
  {
    if n > 0 {
      var r := Iterate(force, p, dt, n - 1);
      var q := Iterate(force, p, dt, n);
      var back := Step(force, q, -dt);
      assert SamePhase(back, r) by {
        assert q == Step(force, r, dt);
        StepIsReversible(force, r, dt);
      }
      assert Iterate(force, q, -dt, n) == Iterate(force, back, -dt, n - 1) by {
        IterateFirstStep(force, q, -dt, n);
      }
      assert SamePhase(Iterate(force, back, -dt, n - 1), Iterate(force, r, -dt, n - 1)) by {
        IteratePreservesPhase(force, back, r, -dt, n - 1);
      }
      assert SamePhase(Iterate(force, r, -dt, n - 1), p) by {
        RunIsReversible(force, p, dt, n - 1);
      }
    }
  }

  /** In a field that exerts no force anywhere nothing accelerates the
      particle: its velocity is constant and its position moves linearly
      with elapsed time. */
  lemma {:induction false} FreeMotionIsLinear(force: real -> real, p: Particle, dt: real, n: nat)
    requires p.mass != 0.0 && forall x :: force(x) == 0.0
    ensures Iterate(force, p, dt, n).velocity == p.velocity
    ensures Iterate(force, p, dt, n).position == p.position + p.velocity * (n as real * dt)
    decreases n
  {
    if n > 0 {
      FreeMotionIsLinear(force, p, dt, n - 1);
      FreeStepAfter(force, p, dt, n, Iterate(force, p, dt, n - 1));
    }
  }

  /** The step that extends n - 1 steps of uniform motion to n. */
  lemma FreeStepAfter(force: real -> real, p: Particle, dt: real, n: nat, q: Particle)
    requires n > 0 && q.mass != 0.0 && forall x :: force(x) == 0.0
    requires q.velocity == p.velocity && q.position == p.position + p.velocity * ((n - 1) as real * dt)
    ensures Step(force, q, dt).velocity == p.velocity
    ensures Step(force, q, dt).position == p.position + p.velocity * (n as real * dt)
  {
    FreeStep(force, q, dt);
    LinearStep(p.position, p.velocity, dt, n - 1, q.position);
  }

  /** One step without a field is a pure drift. */
  lemma FreeStep(force: real -> real, p: Particle, dt: real)
    requires p.mass != 0.0 && forall x :: force(x) == 0.0
    ensures Step(force, p, dt).velocity == p.velocity
    ensures Step(force, p, dt).position == p.position + p.velocity * dt
  {
    assert 0.0 / p.mass == 0.0;
  }

  lemma LinearStep(x: real, v: real, dt: real, k: nat, xk: real)
    requires xk == x + v * (k as real * dt)
    ensures xk + v * dt == x + v * ((k + 1) as real * dt)
  {
    assert (k + 1) as real * dt == k as real * dt + dt;
  }
}
